=== FILE: README.md ===
# Uptime monitor: check and transition logic

A Dafny model of the `monitor` package of a small uptime monitor. The package
probes registered sites, keeps an append-only `checks` table of
`(site_id, up, checked_at)` rows, and publishes a `TransitionEvent{Site, Up}`
when a site's state flips between up and down. It has two check paths:

- the edge-triggered path of `monitor/alerts.go`. `getPreviousMeasurement`
  reads the site's latest row, or reports up when the site has none.
  `publishOnTransition` publishes an event exactly when the new value differs
  from that prior value. `check` pings, then publishes if the state flipped,
  then inserts the row. Any error skips the later steps. Site-registration
  events are routed here;
- the plain path of `monitor/check.go`. `Check` bumps the `Checked` counter,
  looks the site up, pings it and inserts a row, with no transition detection.
  `CheckAll` lists the sites and runs `Check` on each. The API and the cron job
  use this path.

Layout:

- `records.dfy` (`Records`): sites, check records, transition events, errors
  and the per-call `Outcomes` that the environment supplies. An outcome gives
  the result of `Ping` and, for each storage or topic step, either no fault or
  a fault code. Also the `Store`: the checks table, the event log, the clock
  and the counters.
- `history.dfy` (`History`): the checks table. It holds the latest-row query,
  the prior-state rule, the INSERT stamped by `NOW()`, and the flip sequence of
  a site's recorded states.
- `alerts.dfy` (`Alerts`): `publishOnTransition` and `check` as step functions
  on a `Store`, and the invariant "published events equal the flips of the
  recorded states" over any run.
- `checks.dfy` (`Checks`): `Check` and the sequential meaning of `CheckAll`.
- `service.dfy` (`Service`): the class `Monitor`, which holds the package's
  state in fields. Its methods update that state step by step. Each method is
  proved to produce exactly the state and error of its step function.

`NOW()` is an abstract clock. A row is stamped with the clock, and the clock
then moves on. So stamps strictly increase (`History.Stamped`), and the row
picked by `ORDER BY checked_at DESC LIMIT 1` is the last one appended for that
site (`History.LatestIsMostRecent`).

The code makes these choices, and the model follows them:

- a probe error is returned as an error, not classified as down;
- `CheckAll` returns one error (the first, in list order, in this sequential
  model), not a list of every failure;
- the plain `Check` path does no transition detection. `Checks.CheckLosesTransition`
  shows what that costs.

## Model

| member | source | states |
|---|---|---|
| `Records.Increment` | monitor/check.go:30 | incrementing a labelled counter adds one to that label's count and leaves every other label's count unchanged |
| `History.Latest` | monitor/alerts.go:30-35 | the site's latest row is absent exactly when no row has that site id; when present it is a row of the table for that site |
| `History.LatestIsMostRecent` | monitor/alerts.go:30-35 | with strictly increasing stamps, no row of the site has a later `checked_at`, and the only row with an equal stamp is the latest row itself, so `ORDER BY checked_at DESC LIMIT 1` is determined |
| `History.QueryLatestUp` | monitor/alerts.go:30-35 | the latest-row query returns its own fault; with no fault it returns the driver's no-rows error exactly when the site has no row, and otherwise the `up` of the site's latest row |
| `History.PreviousMeasurement` | monitor/alerts.go:29-44 | a query fault is returned as the error; with no fault, a site without rows is reported up, and otherwise the result is the `up` of its latest row |
| `History.PriorIsLastRecordedUp` | monitor/alerts.go:29-44 | with no fault, the prior state is the last `up` recorded for the site, or up when nothing is recorded |
| `History.PriorDependsOnlyOnOwnRecords` | monitor/alerts.go:30-35 | two tables with the same rows for a site give the same prior state for it, so other sites' rows have no influence |
| `History.FlipsAlternate` | monitor/alerts.go:51-59 | the flips of a state sequence alternate: the first differs from the starting state, each differs from the one before, and the last is the current state |
| `History.Insert` | monitor/alerts.go:74-78 | the insert's fault is the error; on success exactly one row `(site, up, clock)` is appended and the clock moves forward; on failure nothing changes |
| `History.InsertKeepsStamped` | monitor/alerts.go:74-78 | a row stamped by `NOW()` is later than every row before it, so stamps stay strictly increasing |
| `Alerts.PublishOnTransition` | monitor/alerts.go:46-60 | never writes a row; a failed prior-state query is returned with nothing published; equal values publish nothing and return nil; differing values (the flip test `IsTransition`) publish exactly one event with the given site and the new value, and return the publish error |
| `Alerts.CheckAndPublish` | monitor/alerts.go:62-79 | a ping error returns immediately with no change; a failed prior-state query returns that error with no change; a failed publish on a flip returns that error with no row written; otherwise the result is the insert's error; a row is written exactly when the check returns nil, and it is `(site.ID, result.Up)`; at most one event, carrying the new value, and only on a flip from the prior state; with no fault, an event appears exactly on a flip; when only the insert fails, the state is the one publishing left (any event stays logged, no row, clock unchanged); the counter is untouched |
| `Alerts.CheckAndPublishKeepsStamped` | monitor/alerts.go:62-79 | `check` keeps the stamps of the checks table strictly increasing |
| `Alerts.NextPriorIsThisProbe` | monitor/alerts.go:70-78 | after a successful check, the next check's prior state is the value just probed |
| `Alerts.FirstCheckAlertsOnlyWhenDown` | monitor/alerts.go:37-59 | for a site with no rows, a down probe publishes one down event, an up probe publishes none, and one row is written either way |
| `Alerts.CheckKeepsEventsMatchingFlips` | monitor/alerts.go:62-79 | one check of any site keeps every site's published `Up` values equal to the flips of its recorded states; the one exception is an insert failure after a published event |
| `Alerts.RunEventsAreFlips` | monitor/alerts.go:29-79 | over any run of checks, on any sites, in which no insert for the site fails (other sites' inserts may fail), the site's published `Up` values stay exactly the flips of its recorded `up` sequence from the default up, in order |
| `Alerts.NewSiteMatchesFlips` | monitor/alerts.go:37-39 | a site with no rows and no events starts with events equal to flips |
| `Alerts.PublishedEventsAlternate` | monitor/alerts.go:51-59 | while events equal flips, a site's events alternate between down and up, and the first one is a down event |
| `Alerts.InsertFailureRepublishes` | monitor/alerts.go:68-78 | an insert failure after a published event makes the next check with the same value publish the same event again (a duplicate, not a lost event) |
| `Checks.FindSite` | monitor/check.go:31-34 | the registry lookup finds a site with the requested id, and finds none exactly when no registered site has that id |
| `Checks.Lookup` | monitor/check.go:31-34 | the registry's fault is returned as the error; with no fault the lookup succeeds exactly when some registered site has the id, returns such a site, and otherwise returns not-found for the id |
| `Checks.CheckError` | monitor/check.go:31-43 | the error `Check` returns: the lookup's fault, else not-found, else the ping's error, else the insert's; it does not depend on the check history |
| `Checks.Check` | monitor/check.go:28-44 | every call adds one to the `Success=false` counter and none to `Success=true`; never publishes; returns `CheckError`; writes a row exactly when it returns nil, and that row is `(siteID, result.Up)` |
| `Checks.CheckLosesTransition` | monitor/check.go:28-44 | when a site recorded up is probed down by `Check`, no event is published, events stop matching flips, and a later alerting check that probes it down again publishes nothing |
| `Checks.CheckKeepsStamped` | monitor/check.go:28-44 | `Check` keeps the stamps of the checks table strictly increasing |
| `Checks.CheckFirst` | monitor/check.go:59-66 | checking the first n listed sites keeps the earlier rows as a prefix of the table and adds at most one row per site |
| `Checks.SweepStep` | monitor/check.go:59-66 | checking one more listed site runs its `Check` on the state the earlier checks left, appends its row exactly when its own check returns nil, and keeps an earlier error |
| `Checks.SweepOnlyAppends` | monitor/check.go:59-66 | checking one more listed site keeps every earlier row in place |
| `Checks.SweepCountsEachSiteOnce` | monitor/check.go:59-66 | after checking the first n listed sites, the `Success=false` counter is up by n, `Success=true` is unchanged, and no event is published |
| `Checks.SweepFailsIffSomeCheckFails` | monitor/check.go:59-66 | the sweep's error is nil exactly when every `Check` it ran returned nil |
| `Checks.EarlierRowsKept` | monitor/check.go:59-66 | the sweep only appends: the rows present after the first m checks are a prefix of the rows after the first n |
| `Checks.FirstErrorWins` | monitor/check.go:57-66 | a non-nil aggregate error is the error of the earliest listed site whose check failed |
| `Checks.EveryHealthySiteRecorded` | monitor/check.go:59-66 | with each call's outcomes given independently, every listed site whose own check returned nil has its row in the final table, whatever the other calls returned |
| `Checks.CheckAll` | monitor/check.go:49-67 | a failing list returns that error and changes nothing; otherwise every listed site is counted once, no event is published, and the result is nil exactly when every check returned nil; the state and error are those of the sweep `CheckFirst` over all listed sites |
| `Service.Monitor.RecordCheck` | monitor/alerts.go:74-78 | the state after the insert is the one `History.Insert` gives, and stamps stay increasing |
| `Service.Monitor.PublishOnTransition` | monitor/alerts.go:46-60 | updates the event log exactly as `Alerts.PublishOnTransition` states and returns its error, keeping stamps increasing |
| `Service.Monitor.CheckAndPublish` | monitor/alerts.go:62-79 | ping, publish on a flip, then insert, leaving exactly the state and error `Alerts.CheckAndPublish` states |
| `Service.Monitor.Check` | monitor/check.go:28-44 | counter, lookup, ping, insert, leaving exactly the state and error `Checks.Check` states |
| `Service.Monitor.CheckAll` | monitor/check.go:49-67 | a loop over the listed sites that calls `Check` on each and keeps the first error, leaving exactly the state and error `Checks.CheckAll` states |

## Left out

- `Ping` and the HTTP probe behind it are not part of this model. Each call's ping result is given as `Outcomes.ping`, either an error or an `up` value.
- `site.Get` and `site.List` are not part of this model. They are modelled as reading a registry sequence (`Monitor.sites`, first site with the id), with a possible fault code.
- Database and topic failures are fault codes supplied per call. A fault never reads as the driver's no-rows error; that error arises only when the site has no row.
- Alerts.PublishOnTransition: a failed `Publish` leaves the event log unchanged. The possibility that a failed publish was still delivered (at-least-once transport) is not modelled.
- Go's `(false, err)` return of `getPreviousMeasurement` is a `Result`. The `false` that goes with an error is never read, so it is dropped.
- The errgroup fan-out in `CheckAll` is left out: the cap of 8 in-flight checks, cancelling the shared context after the first error, and nondeterministic ordering. This is concurrency. `CheckAll` is modelled as a sequential loop, so "the first error" is the first in list order rather than the first in time.
- The Pub/Sub topics and subscriptions, at-least-once delivery and duplicate delivery of `site-add` messages are transport. The site-add subscription handler is `check` itself (`Service.Monitor.CheckAndPublish`). The event topic is an append-only log.
- Checks.EveryHealthySiteRecorded: each call's outcomes are given independently. In `CheckAll`, the first failing check cancels the shared context, so later checks in the sweep run on a cancelled context and may fail because of it; that coupling is not modelled.
- Records.Increment: the `Checked` counter is a `uint64`; the model's counts are unbounded, so wrap-around after 2^64 increments is not modelled.
- The cron schedule of `CheckAll` and the metrics backend are left out. Only the increment of the `Checked` counter with its label is modelled.
- Real `NOW()` timestamps are left out; they could tie or go backwards. The clock is abstract and advances on each successful insert.
- `site/add.go` (`Add`: a database create and a topic publish) is outside the monitor core. The https scheme default its comment mentions is done by no code in that file.
- Races between concurrent checks of the same site are not modelled. An example is a registration check racing a sweep, where both read the same prior state.

=== FILE: alerts.dfy ===
/** The edge-triggered check path of monitor/alerts.go as step functions over
    a Store: `publishOnTransition` and `check`, and what a run of such checks
    publishes. */
module Alerts {
  import opened Records
  import opened History

  /** `publishOnTransition`: read the site's prior state and, when the new
      value differs from it, publish one event carrying the new value. It never
      writes a check record. */
  function PublishOnTransition(st: Store, site: Site, isUp: bool, o: Outcomes): (r: Step)
    ensures r.store.checks == st.checks && r.store.clock == st.clock && r.store.checked == st.checked
    ensures o.query.Some? ==> r == Step(st, Some(Failure(o.query.value)))
    ensures o.query.None? && !IsTransition(LastUp(true, UpsFor(st.checks, site.id)), isUp) ==> r == Step(st, None)
    ensures o.query.None? && IsTransition(LastUp(true, UpsFor(st.checks, site.id)), isUp) ==>
      r.err == Fail(o.publish) &&
      r.store.events == st.events + (if o.publish.None? then [TransitionEvent(site, isUp)] else [])
  {
    PriorIsLastRecordedUp(st.checks, site.id);
    match PreviousMeasurement(st.checks, site.id, o.query)
    case Err(e) => Step(st, Some(e))
    case Ok(wasUp) =>
      if !IsTransition(wasUp, isUp) then Step(st, None)
      else
        var err := Fail(o.publish);
        Step(if err.None? then st.(events := st.events + [TransitionEvent(site, isUp)]) else st, err)
  }

  /** `check`: ping, publish if the state flipped, then append the record;
      any error skips the later steps. A record is written exactly when the
      check returns no error, after any event it publishes. */
  function CheckAndPublish(st: Store, site: Site, o: Outcomes): (r: Step)
    ensures r.store.checked == st.checked
    ensures o.ping.Err? ==> r == Step(st, Some(o.ping.error))
    ensures r.err.None? <==> r.store.checks != st.checks
    ensures r.err.None? ==> o.ping.Ok? && r.store.checks == st.checks + [CheckRecord(site.id, o.ping.value, st.clock)]
    ensures r.store.events == st.events ||
      (o.ping.Ok? && o.query.None? && o.publish.None? &&
       IsTransition(LastUp(true, UpsFor(st.checks, site.id)), o.ping.value) &&
       r.store.events == st.events + [TransitionEvent(site, o.ping.value)])
    ensures o.ping.Ok? && o.query.None? && o.publish.None? && o.insert.None? ==>
      r.err.None? &&
      (r.store.events != st.events <==> IsTransition(LastUp(true, UpsFor(st.checks, site.id)), o.ping.value))
    ensures o.ping.Ok? && o.query.Some? ==> r == Step(st, Some(Failure(o.query.value)))
    ensures (o.ping.Ok? && o.query.None? && o.publish.Some? &&
             IsTransition(LastUp(true, UpsFor(st.checks, site.id)), o.ping.value)) ==>
      r == Step(st, Some(Failure(o.publish.value)))
    ensures (o.ping.Ok? && o.query.None? &&
             (o.publish.None? || !IsTransition(LastUp(true, UpsFor(st.checks, site.id)), o.ping.value))) ==>
      r.err == Fail(o.insert)
    ensures (o.ping.Ok? && o.query.None? && o.insert.Some? &&
             (o.publish.None? || !IsTransition(LastUp(true, UpsFor(st.checks, site.id)), o.ping.value))) ==>
      r.store == PublishOnTransition(st, site, o.ping.value, o).store
  {
    match o.ping
    case Err(e) => Step(st, Some(e))
    case Ok(up) =>
      var p := PublishOnTransition(st, site, up, o);
      if p.err.Some? then p else Insert(p.store, site.id, up, o.insert)
  }

  /** `check` keeps the stamps of the checks table increasing. */
  lemma CheckAndPublishKeepsStamped(st: Store, site: Site, o: Outcomes)
    requires Stamped(st)
    ensures Stamped(CheckAndPublish(st, site, o).store)
  {
    if o.ping.Ok? {
      var p := PublishOnTransition(st, site, o.ping.value, o);
      InsertKeepsStamped(p.store, site.id, o.ping.value, o.insert);
    }
  }

  /** After a successful check, the next check of the site sees the value
      just probed as its prior state: the prior never reflects the probe of
      the check that reads it, only the one before. */
  lemma NextPriorIsThisProbe(st: Store, site: Site, o: Outcomes)
    requires CheckAndPublish(st, site, o).err.None?
    ensures PreviousMeasurement(CheckAndPublish(st, site, o).store.checks, site.id, None) == Ok(o.ping.value)
  {
  }

  /** The first check of a site that has no record: a down probe publishes
      one down event, an up probe publishes nothing; either way one record
      with the probed value is written. */
  lemma FirstCheckAlertsOnlyWhenDown(st: Store, site: Site, o: Outcomes)
    requires forall i :: 0 <= i < |st.checks| ==> st.checks[i].siteID != site.id
    requires o.ping.Ok? && o.query.None? && o.publish.None? && o.insert.None?
    ensures var r := CheckAndPublish(st, site, o);
      r.err.None? &&
      r.store.checks == st.checks + [CheckRecord(site.id, o.ping.value, st.clock)] &&
      r.store.events == st.events + (if o.ping.value then [] else [TransitionEvent(site, false)])
  {
  }

  /** The events published for site `id` are exactly the flips of the site's
      recorded states, starting from the default up. */
  ghost predicate EventsMatchFlips(st: Store, id: int)
  {
    EventUps(st.events, id) == Flips(true, UpsFor(st.checks, id))
  }

  /** One `check` of any site keeps every site's events equal to its flips,
      except when the event was published and the INSERT then failed: the
      event is then logged without the record that reflects it. */
  lemma {:induction false} CheckKeepsEventsMatchingFlips(st: Store, site: Site, o: Outcomes, id: int)
    requires EventsMatchFlips(st, id)
    ensures var r := CheckAndPublish(st, site, o);
      EventsMatchFlips(r.store, id) ||
      (o.insert.Some? && r.err == Some(Failure(o.insert.value)) && r.store.checks == st.checks &&
       r.store.events == st.events + [TransitionEvent(site, o.ping.value)])
  {
    var r := CheckAndPublish(st, site, o);
    if r.err.None? {
      var up := o.ping.value;
      var flipped := IsTransition(LastUp(true, UpsFor(st.checks, site.id)), up);
      assert r.store.events == st.events + (if flipped then [TransitionEvent(site, up)] else []);
      UpsForAppend(st.checks, CheckRecord(site.id, up, st.clock), id);
      FlipsAppend(true, UpsFor(st.checks, id), up);
      if flipped {
        EventUpsAppend(st.events, TransitionEvent(site, up), id);
      }
      if site.id == id {
        assert UpsFor(r.store.checks, id) == UpsFor(st.checks, id) + [up];
        assert EventUps(r.store.events, id) == EventUps(st.events, id) + (if flipped then [up] else []);
      } else {
        assert UpsFor(r.store.checks, id) == UpsFor(st.checks, id);
        assert EventUps(r.store.events, id) == EventUps(st.events, id);
      }
    } else if r.store.events == st.events {
      assert r.store == st;
    }
  }

  /** The state after a sequence of `check` calls, each on its own site and
      with its own outcomes. */
  function CheckRun(st: Store, calls: seq<(Site, Outcomes)>): Store
  {
    if calls == [] then st
    else
      var last := calls[|calls| - 1];
      CheckAndPublish(CheckRun(st, calls[..|calls| - 1]), last.0, last.1).store
  }

  /** Over any run of `check` calls in which no INSERT for site `id` fails
      (pings, queries, publishes and other sites' inserts may fail), the `up` values published for a site are
      exactly the flips of its recorded `up` sequence from the default up, in
      the same order; for a site with no history at the start this holds from
      the first check on. */
  lemma {:induction false} RunEventsAreFlips(st: Store, calls: seq<(Site, Outcomes)>, id: int)
    requires EventsMatchFlips(st, id)
    requires forall k :: 0 <= k < |calls| && calls[k].0.id == id ==> calls[k].1.insert.None?
    ensures EventsMatchFlips(CheckRun(st, calls), id)
  {
    if calls != [] {
      var init := calls[..|calls| - 1];
      assert forall k :: 0 <= k < |init| ==> init[k] == calls[k];
      RunEventsAreFlips(st, init, id);
      var last := calls[|calls| - 1];
      var s0 := CheckRun(st, init);
      CheckKeepsEventsMatchingFlips(s0, last.0, last.1, id);
      if last.0.id != id && last.1.ping.Ok? {
        EventUpsAppend(s0.events, TransitionEvent(last.0, last.1.ping.value), id);
      }
    }
  }

  /** A site with no records and no events is where every run starts. */
  lemma NewSiteMatchesFlips(st: Store, id: int)
    requires forall i :: 0 <= i < |st.checks| ==> st.checks[i].siteID != id
    requires forall i :: 0 <= i < |st.events| ==> st.events[i].site.id != id
    ensures EventsMatchFlips(st, id)
  {
    NoRecordsNoUps(st.checks, id);
    NoEventsNoUps(st.events, id);
  }

  lemma {:induction false} NoRecordsNoUps(checks: seq<CheckRecord>, id: int)
    requires forall i :: 0 <= i < |checks| ==> checks[i].siteID != id
    ensures UpsFor(checks, id) == []
  {
    if checks != [] {
      NoRecordsNoUps(checks[..|checks| - 1], id);
    }
  }

  lemma {:induction false} NoEventsNoUps(events: seq<TransitionEvent>, id: int)
    requires forall i :: 0 <= i < |events| ==> events[i].site.id != id
    ensures EventUps(events, id) == []
  {
    if events != [] {
      NoEventsNoUps(events[..|events| - 1], id);
    }
  }

  /** While events match flips, a site's events alternate between down and
      up, and the first one ever published for it is a down event. */
  lemma PublishedEventsAlternate(st: Store, id: int)
    requires EventsMatchFlips(st, id)
    ensures var e := EventUps(st.events, id);
      (|e| > 0 ==> !e[0]) && forall k :: 0 <= k < |e| - 1 ==> e[k] != e[k + 1]
  {
    FlipsAlternate(true, UpsFor(st.checks, id));
  }

  /** Publishing before inserting means a failed INSERT after a published
      event makes the next successful check of the same value publish the
      same event again: a duplicate, never a lost event. */
  lemma InsertFailureRepublishes(st: Store, site: Site, o1: Outcomes, o2: Outcomes)
    requires o1.ping.Ok? && o1.query.None? && o1.publish.None? && o1.insert.Some?
    requires IsTransition(LastUp(true, UpsFor(st.checks, site.id)), o1.ping.value)
    requires o2.ping == o1.ping && o2.query.None? && o2.publish.None? && o2.insert.None?
    ensures var s1 := CheckAndPublish(st, site, o1).store;
      var s2 := CheckAndPublish(s1, site, o2).store;
      s1.events == st.events + [TransitionEvent(site, o1.ping.value)] &&
      s2.events == s1.events + [TransitionEvent(site, o1.ping.value)]
  {
  }
}

=== FILE: checks.dfy ===
/** The plain check path of monitor/check.go as step functions over a Store:
    `Check`, which counts, looks the site up, pings it and appends a record
    without any transition detection, and the sequential meaning of
    `CheckAll`. */
module Checks {
  import opened Records
  import opened History
  import Alerts

  /** The first registered site with the given id. */
  function FindSite(sites: seq<Site>, id: int): (r: Option<Site>)
    ensures r.Some? ==> r.value in sites && r.value.id == id
    ensures r.None? <==> forall i :: 0 <= i < |sites| ==> sites[i].id != id
  {
    if sites == [] then None
    else if sites[0].id == id then Some(sites[0])
    else
      var rest := FindSite(sites[1..], id);
      assert forall i :: 1 <= i < |sites| ==> sites[i] == sites[1..][i - 1];
      rest
  }

  /** `site.Get`: the registered site with the given id, the registry's
      fault, or NotFound. */
  function Lookup(sites: seq<Site>, id: int, fault: Option<nat>): (r: Result<Site>)
    ensures fault.Some? ==> r == Err(Failure(fault.value))
    ensures fault.None? && (forall i :: 0 <= i < |sites| ==> sites[i].id != id) ==> r == Err(NotFound(id))
    ensures r.Ok? <==> fault.None? && exists i :: 0 <= i < |sites| && sites[i].id == id
    ensures r.Ok? ==> r.value in sites && r.value.id == id
  {
    if fault.Some? then Err(Failure(fault.value))
    else
      match FindSite(sites, id)
      case None => Err(NotFound(id))
      case Some(s) => Ok(s)
  }

  /** The error `Check` returns. It is decided by the registry and the
      outcomes alone: `Check` reads no check history. */
  function CheckError(sites: seq<Site>, siteID: int, o: Outcomes): (err: Option<Error>)
    ensures o.lookup.Some? ==> err == Some(Failure(o.lookup.value))
    ensures o.lookup.None? && FindSite(sites, siteID).None? ==> err == Some(NotFound(siteID))
    ensures o.lookup.None? && FindSite(sites, siteID).Some? ==>
      err == (if o.ping.Err? then Some(o.ping.error) else Fail(o.insert))
  {
    match Lookup(sites, siteID, o.lookup)
    case Err(e) => Some(e)
    case Ok(_) =>
      match o.ping
      case Err(e) => Some(e)
      case Ok(_) => Fail(o.insert)
  }

  /** `Check`: count the call under `Success=false` (the label is never set),
      look the site up, ping it and append one record; never publishes. */
  function Check(st: Store, sites: seq<Site>, siteID: int, o: Outcomes): (r: Step)
    ensures Count(r.store.checked, Labels(false)) == Count(st.checked, Labels(false)) + 1
    ensures Count(r.store.checked, Labels(true)) == Count(st.checked, Labels(true))
    ensures r.store.events == st.events
    ensures r.err == CheckError(sites, siteID, o)
    ensures r.err.None? <==> r.store.checks != st.checks
    ensures r.err.None? ==> r.store.checks == st.checks + [CheckRecord(siteID, o.ping.value, st.clock)]
  {
    var counted := st.(checked := Increment(st.checked, Labels(false)));
    match Lookup(sites, siteID, o.lookup)
    case Err(e) => Step(counted, Some(e))
    case Ok(site) =>
      match o.ping
      case Err(e) => Step(counted, Some(e))
      case Ok(up) => Insert(counted, site.id, up, o.insert)
  }

  /** The error the k-th `Check` of a sweep returns. */
  function CallError(sites: seq<Site>, env: nat -> Outcomes, k: nat): Option<Error>
    requires k < |sites|
  {
    CheckError(sites, sites[k].id, env(k))
  }

  /** The state and first error after `Check` has run on the first `n`
      listed sites in order, the i-th call with outcomes `env(i)`. */
  function CheckFirst(st: Store, sites: seq<Site>, n: nat, env: nat -> Outcomes): (r: Step)
    requires n <= |sites|
    ensures st.checks <= r.store.checks && |r.store.checks| <= |st.checks| + n
  {
    if n == 0 then Step(st, None)
    else
      var prev := CheckFirst(st, sites, n - 1, env);
      var c := Check(prev.store, sites, sites[n - 1].id, env(n - 1));
      Step(c.store, if prev.err.Some? then prev.err else c.err)
  }

  /** One more listed site: its `Check` runs on the state the earlier ones
      left, and the earlier error, if any, is kept. */
  lemma SweepStep(st: Store, sites: seq<Site>, n: nat, env: nat -> Outcomes)
    requires 0 < n <= |sites|
    ensures var prev := CheckFirst(st, sites, n - 1, env);
      var r := CheckFirst(st, sites, n, env);
      r.err == (if prev.err.Some? then prev.err else CallError(sites, env, n - 1)) &&
      r.store.checks == prev.store.checks +
        (if CallError(sites, env, n - 1).None?
         then [CheckRecord(sites[n - 1].id, env(n - 1).ping.value, prev.store.clock)] else [])
  {
  }

  /** Each listed site is counted once, under `Success=false`, and the sweep
      publishes nothing. */
  lemma {:induction false} SweepCountsEachSiteOnce(st: Store, sites: seq<Site>, n: nat, env: nat -> Outcomes)
    requires n <= |sites|
    ensures var r := CheckFirst(st, sites, n, env);
      r.store.events == st.events &&
      Count(r.store.checked, Labels(false)) == Count(st.checked, Labels(false)) + n &&
      Count(r.store.checked, Labels(true)) == Count(st.checked, Labels(true))
  {
    if n > 0 {
      SweepCountsEachSiteOnce(st, sites, n - 1, env);
    }
  }

  /** The sweep returns nil exactly when every `Check` it ran returned nil. */
  lemma {:induction false} SweepFailsIffSomeCheckFails(st: Store, sites: seq<Site>, n: nat, env: nat -> Outcomes)
    requires n <= |sites|
    ensures CheckFirst(st, sites, n, env).err.None? <==> forall k :: 0 <= k < n ==> CallError(sites, env, k).None?
  {
    if n > 0 {
      SweepFailsIffSomeCheckFails(st, sites, n - 1, env);
      SweepStep(st, sites, n, env);
    }
  }

  /** The aggregate error is the error of the earliest listed site whose
      check failed. */
  lemma {:induction false} FirstErrorWins(st: Store, sites: seq<Site>, n: nat, env: nat -> Outcomes)
    requires n <= |sites|
    ensures var err := CheckFirst(st, sites, n, env).err;
      err.Some? ==>
        exists k :: (0 <= k < n && err == CallError(sites, env, k) &&
                     forall j :: 0 <= j < k ==> CallError(sites, env, j).None?)
  {
    if n > 0 {
      var prev := CheckFirst(st, sites, n - 1, env);
      if prev.err.Some? {
        FirstErrorWins(st, sites, n - 1, env);
      } else {
        SweepFailsIffSomeCheckFails(st, sites, n - 1, env);
        SweepStep(st, sites, n, env);
      }
    }
  }

  /** `Check` keeps the stamps of the checks table increasing. */
  lemma CheckKeepsStamped(st: Store, sites: seq<Site>, siteID: int, o: Outcomes)
    requires Stamped(st)
    ensures Stamped(Check(st, sites, siteID, o).store)
  {
    if CheckError(sites, siteID, o).None? {
      InsertKeepsStamped(st.(checked := Increment(st.checked, Labels(false))), siteID, o.ping.value, o.insert);
    }
  }

  lemma PrefixTransitive(a: seq<CheckRecord>, b: seq<CheckRecord>, c: seq<CheckRecord>)
    requires a <= b && b <= c
    ensures a <= c
  {
    assert forall i :: 0 <= i < |a| ==> a[i] == b[i] == c[i];
  }

  /** One more listed site appends at most its own row. */
  lemma SweepOnlyAppends(st: Store, sites: seq<Site>, n: nat, env: nat -> Outcomes)
    requires 0 < n <= |sites|
    ensures CheckFirst(st, sites, n - 1, env).store.checks <= CheckFirst(st, sites, n, env).store.checks
  {
    SweepStep(st, sites, n, env);
  }

  /** The sweep only appends: rows present after the first m checks are
      still there, in place, after the first n. */
  lemma {:induction false} EarlierRowsKept(st: Store, sites: seq<Site>, m: nat, n: nat, env: nat -> Outcomes)
    requires m <= n <= |sites|
    ensures CheckFirst(st, sites, m, env).store.checks <= CheckFirst(st, sites, n, env).store.checks
  {
    if m < n {
      EarlierRowsKept(st, sites, m, n - 1, env);
      SweepOnlyAppends(st, sites, n, env);
      PrefixTransitive(CheckFirst(st, sites, m, env).store.checks,
                       CheckFirst(st, sites, n - 1, env).store.checks,
                       CheckFirst(st, sites, n, env).store.checks);
    }
  }

  /** With each call's outcomes given independently, every listed site whose
      own check did not fail gets its record, whatever the other calls
      returned. */
  lemma EveryHealthySiteRecorded(st: Store, sites: seq<Site>, n: nat, env: nat -> Outcomes, k: nat)
    requires k < n <= |sites|
    requires CallError(sites, env, k).None?
    ensures CheckRecord(sites[k].id, env(k).ping.value, CheckFirst(st, sites, k, env).store.clock)
      in CheckFirst(st, sites, n, env).store.checks
  {
    var rec := CheckRecord(sites[k].id, env(k).ping.value, CheckFirst(st, sites, k, env).store.clock);
    var mid := CheckFirst(st, sites, k + 1, env).store.checks;
    SweepStep(st, sites, k + 1, env);
    EarlierRowsKept(st, sites, k + 1, n, env);
    assert CheckFirst(st, sites, n, env).store.checks[|mid| - 1] == rec;
  }

  /** `CheckAll`: list the sites, then `Check` each one; nil only when every
      call returned nil, otherwise the first error. A failing list checks no
      site. */
  function CheckAll(st: Store, sites: seq<Site>, listFault: Option<nat>, env: nat -> Outcomes): (r: Step)
    ensures listFault.Some? ==> r == Step(st, Some(Failure(listFault.value)))
    ensures r.store.events == st.events
    ensures listFault.None? ==>
      Count(r.store.checked, Labels(false)) == Count(st.checked, Labels(false)) + |sites| &&
      (r.err.None? <==> forall k :: 0 <= k < |sites| ==> CallError(sites, env, k).None?)
    ensures listFault.None? ==> r == CheckFirst(st, sites, |sites|, env)
  {
    if listFault.Some? then Step(st, Some(Failure(listFault.value)))
    else
      SweepCountsEachSiteOnce(st, sites, |sites|, env);
      SweepFailsIffSomeCheckFails(st, sites, |sites|, env);
      CheckFirst(st, sites, |sites|, env)
  }

  /** `Check` ignores the prior state: with the site down after having been
      recorded up, its down record comes with no event, so the site's events
      no longer match its flips, and a later `check` that probes it down
      again publishes nothing either; the down transition is never
      announced. */
  lemma CheckLosesTransition(st: Store, sites: seq<Site>, site: Site, o: Outcomes, o2: Outcomes)
    requires Alerts.EventsMatchFlips(st, site.id)
    requires FindSite(sites, site.id) == Some(site)
    requires LastUp(true, UpsFor(st.checks, site.id))
    requires o.lookup.None? && o.ping == Ok(false) && o.insert.None?
    requires o2.ping == Ok(false) && o2.query.None?
    ensures var after := Check(st, sites, site.id, o).store;
      !Alerts.EventsMatchFlips(after, site.id) &&
      Alerts.CheckAndPublish(after, site, o2).store.events == after.events
  {
  }
}

=== FILE: history.dfy ===
/** The `checks` table as a sequence of records in insertion order: the query
    for a site's most recent record, the prior-state rule of
    `getPreviousMeasurement`, the INSERT that appends a record stamped by
    `NOW()`, and the flip sequence that transition events should follow. */
module History {
  import opened Records

  /** Every record is stamped strictly later than the ones appended before it,
      and strictly earlier than the current clock. */
  ghost predicate Stamped(st: Store)
  {
    (forall i, j :: 0 <= i < j < |st.checks| ==> st.checks[i].checkedAt < st.checks[j].checkedAt) &&
    (forall i :: 0 <= i < |st.checks| ==> st.checks[i].checkedAt < st.clock)
  }

  /** The `up` values recorded for site `id`, in insertion order. */
  function UpsFor(checks: seq<CheckRecord>, id: int): (ups: seq<bool>)
  {
    if checks == [] then []
    else
      var last := checks[|checks| - 1];
      UpsFor(checks[..|checks| - 1], id) + (if last.siteID == id then [last.up] else [])
  }

  /** The last record appended for site `id`, if there is one. */
  function Latest(checks: seq<CheckRecord>, id: int): (r: Option<CheckRecord>)
    ensures r.None? <==> forall i :: 0 <= i < |checks| ==> checks[i].siteID != id
    ensures r.Some? ==> r.value in checks && r.value.siteID == id
  {
    if checks == [] then None
    else if checks[|checks| - 1].siteID == id then Some(checks[|checks| - 1])
    else
      var init := checks[..|checks| - 1];
      assert forall i :: 0 <= i < |init| ==> init[i] == checks[i];
      Latest(init, id)
  }

  /** With strictly increasing stamps, the last record appended for a site is
      the single row `ORDER BY checked_at DESC LIMIT 1` selects: no record of
      the site is later, and no other record of the site is as late. */
  lemma {:induction false} LatestIsMostRecent(checks: seq<CheckRecord>, id: int)
    requires forall i, j :: 0 <= i < j < |checks| ==> checks[i].checkedAt < checks[j].checkedAt
    ensures match Latest(checks, id)
      case None => true
      case Some(l) =>
        forall i :: 0 <= i < |checks| && checks[i].siteID == id ==>
          checks[i].checkedAt <= l.checkedAt && (checks[i].checkedAt == l.checkedAt ==> checks[i] == l)
  {
    if checks != [] && checks[|checks| - 1].siteID != id {
      var init := checks[..|checks| - 1];
      LatestIsMostRecent(init, id);
      assert forall i :: 0 <= i < |init| ==> init[i] == checks[i];
    }
  }

  /** `SELECT up FROM checks WHERE site_id = $1 ORDER BY checked_at DESC
      LIMIT 1` followed by `Scan`: the row's `up`, the driver's ErrNoRows
      when the site has no row, or the query's own fault. */
  function QueryLatestUp(checks: seq<CheckRecord>, id: int, fault: Option<nat>): (r: Result<bool>)
    ensures fault.Some? ==> r == Err(Failure(fault.value))
    ensures r == Err(ErrNoRows) <==> fault.None? && forall i :: 0 <= i < |checks| ==> checks[i].siteID != id
    ensures fault.None? && Latest(checks, id).Some? ==> r == Ok(Latest(checks, id).value.up)
  {
    if fault.Some? then Err(Failure(fault.value))
    else
      match Latest(checks, id)
      case None => Err(ErrNoRows)
      case Some(r) => Ok(r.up)
  }

  /** `getPreviousMeasurement`: whether the site was up at its previous
      measurement; a site never measured counts as up. */
  function PreviousMeasurement(checks: seq<CheckRecord>, id: int, fault: Option<nat>): (r: Result<bool>)
    ensures r.Err? <==> fault.Some?
    ensures fault.Some? ==> r.error == Failure(fault.value)
    ensures fault.None? && (forall i :: 0 <= i < |checks| ==> checks[i].siteID != id) ==> r == Ok(true)
    ensures fault.None? && Latest(checks, id).Some? ==> r == Ok(Latest(checks, id).value.up)
  {
    match QueryLatestUp(checks, id, fault)
    case Err(ErrNoRows) => Ok(true)
    case Err(e) => Err(e)
    case Ok(up) => Ok(up)
  }

  /** The current state after the states `ups`, starting from `prior`. */
  function LastUp(prior: bool, ups: seq<bool>): bool
  {
    if ups == [] then prior else ups[|ups| - 1]
  }

  /** The prior state is the last recorded `up` of the site, or up when the
      site has no record. */
  lemma {:induction false} PriorIsLastRecordedUp(checks: seq<CheckRecord>, id: int)
    ensures PreviousMeasurement(checks, id, None) == Ok(LastUp(true, UpsFor(checks, id)))
  {
    if checks != [] && checks[|checks| - 1].siteID != id {
      PriorIsLastRecordedUp(checks[..|checks| - 1], id);
    }
  }

  /** Records of other sites have no influence on a site's prior state. */
  lemma PriorDependsOnlyOnOwnRecords(c1: seq<CheckRecord>, c2: seq<CheckRecord>, id: int, fault: Option<nat>)
    requires UpsFor(c1, id) == UpsFor(c2, id)
    ensures PreviousMeasurement(c1, id, fault) == PreviousMeasurement(c2, id, fault)
  {
    PriorIsLastRecordedUp(c1, id);
    PriorIsLastRecordedUp(c2, id);
  }

  /** The flip test of `publishOnTransition`. */
  predicate IsTransition(wasUp: bool, isUp: bool)
  {
    isUp != wasUp
  }

  /** The states in `ups` that differ from the state before them, starting
      from `prior`: the values a transition event should announce. */
  function Flips(prior: bool, ups: seq<bool>): seq<bool>
  {
    if ups == [] then []
    else
      var init := ups[..|ups| - 1];
      Flips(prior, init) + (if IsTransition(LastUp(prior, init), ups[|ups| - 1]) then [ups[|ups| - 1]] else [])
  }

  /** Flips alternate: the first differs from `prior`, each differs from the
      one before it, and the last is the current state. */
  lemma {:induction false} FlipsAlternate(prior: bool, ups: seq<bool>)
    ensures var f := Flips(prior, ups);
      (|f| > 0 ==> f[0] != prior) &&
      (forall k :: 0 <= k < |f| - 1 ==> f[k] != f[k + 1]) &&
      LastUp(prior, ups) == (if f == [] then prior else f[|f| - 1])
  {
    if ups != [] {
      FlipsAlternate(prior, ups[..|ups| - 1]);
    }
  }

  /** The `up` values of the events published for site `id`, in order. */
  function EventUps(events: seq<TransitionEvent>, id: int): seq<bool>
  {
    if events == [] then []
    else
      var last := events[|events| - 1];
      EventUps(events[..|events| - 1], id) + (if last.site.id == id then [last.up] else [])
  }

  lemma UpsForAppend(checks: seq<CheckRecord>, r: CheckRecord, id: int)
    ensures UpsFor(checks + [r], id) == UpsFor(checks, id) + (if r.siteID == id then [r.up] else [])
  {
    assert (checks + [r])[..|checks|] == checks;
  }

  lemma EventUpsAppend(events: seq<TransitionEvent>, e: TransitionEvent, id: int)
    ensures EventUps(events + [e], id) == EventUps(events, id) + (if e.site.id == id then [e.up] else [])
  {
    assert (events + [e])[..|events|] == events;
  }

  lemma FlipsAppend(prior: bool, ups: seq<bool>, x: bool)
    ensures Flips(prior, ups + [x]) == Flips(prior, ups) + (if IsTransition(LastUp(prior, ups), x) then [x] else [])
  {
    assert (ups + [x])[..|ups|] == ups;
  }

  /** `INSERT INTO checks (site_id, up, checked_at) VALUES ($1, $2, NOW())`:
      on success one record stamped with the clock, which then moves on. */
  function Insert(st: Store, siteID: int, up: bool, fault: Option<nat>): (r: Step)
    ensures r.err == Fail(fault)
    ensures r.store.events == st.events && r.store.checked == st.checked
    ensures r.err.None? ==> r.store.checks == st.checks + [CheckRecord(siteID, up, st.clock)]
    ensures r.err.None? ==> r.store.clock > st.clock
    ensures r.err.Some? ==> r.store == st
  {
    if fault.Some? then Step(st, Fail(fault))
    else Step(st.(checks := st.checks + [CheckRecord(siteID, up, st.clock)], clock := st.clock + 1), None)
  }

  /** `NOW()` stamps each new row later than every row before it. */
  lemma InsertKeepsStamped(st: Store, siteID: int, up: bool, fault: Option<nat>)
    requires Stamped(st)
    ensures Stamped(Insert(st, siteID, up, fault).store)
  {
  }
}

=== FILE: records.dfy ===
/** Values shared by the whole monitor: sites, check records, transition events,
    the outcomes the environment supplies to one check, and the abstract state
    (checks table, event log, clock, Checked counter) that the checks update. */
module Records {

  datatype Option<+T> = None | Some(value: T)

  datatype Result<+T> = Ok(value: T) | Err(error: Error)

  /** The errors the core can return. `ErrNoRows` is the driver's "the query
      matched no row"; `NotFound` is the registry having no site with an id;
      `Failure` stands for any other failure of the database, the probe or the
      topic, identified only by an opaque code. */
  datatype Error =
    | ErrNoRows
    | NotFound(siteID: int)
    | Failure(code: nat)

  /** A monitored site, owned by the site registry. */
  datatype Site = Site(id: int, url: string)

  /** One row of the `checks` table. */
  datatype CheckRecord = CheckRecord(siteID: int, up: bool, checkedAt: nat)

  /** A published transition: `up` is the site's new state. */
  datatype TransitionEvent = TransitionEvent(site: Site, up: bool)

  /** The label set of the `Checked` counter group. */
  datatype Labels = Labels(success: bool)

  /** The `Checked` counter group: one count for each value of the label. */
  datatype Counters = Counters(succeeded: nat, failed: nat)

  /** What the outside world answers during one check: the result of `Ping`,
      and for each fallible storage or transport step either no fault or the
      code of the fault it raises. */
  datatype Outcomes = Outcomes(
    ping: Result<bool>,
    lookup: Option<nat>,
    query: Option<nat>,
    publish: Option<nat>,
    insert: Option<nat>)

  /** The error a fallible step returns for the given fault, if any. */
  function Fail(fault: Option<nat>): Option<Error>
  {
    match fault
    case None => None
    case Some(code) => Some(Failure(code))
  }

  /** The state the core changes: the `checks` table, the log of published
      transition events, the clock read by `NOW()`, and the `Checked` counter. */
  datatype Store = Store(
    checks: seq<CheckRecord>,
    events: seq<TransitionEvent>,
    clock: nat,
    checked: Counters)

  /** The state after one operation, with the error the operation returns. */
  datatype Step = Step(store: Store, err: Option<Error>)

  /** The value of the counter with label `l`. */
  function Count(counters: Counters, l: Labels): nat
  {
    if l.success then counters.succeeded else counters.failed
  }

  /** `Checked.With(l).Increment()`. */
  function Increment(counters: Counters, l: Labels): (r: Counters)
    ensures Count(r, l) == Count(counters, l) + 1
    ensures forall other :: other != l ==> Count(r, other) == Count(counters, other)
  {
    if l.success then counters.(succeeded := counters.succeeded + 1)
    else counters.(failed := counters.failed + 1)
  }
}

=== FILE: service.dfy ===
/** The monitor service as it runs: package-level state (the `checks` table,
    the transition topic's log, the clock behind `NOW()`, the `Checked`
    counter group) held by one object whose methods update it step by step,
    each proved to leave exactly the state its step function describes. */
module Service {
  import opened Records
  import opened History
  import Alerts
  import Checks

  class Monitor {
    var checks: seq<CheckRecord>
    var events: seq<TransitionEvent>
    var clock: nat
    var checked: Counters
    /** The site registry, read by `site.Get` and `site.List`; only the
        registry service changes it. */
    var sites: seq<Site>

    function State(): Store
      reads this
    {
      Store(checks, events, clock, checked)
    }

    ghost predicate Valid()
      reads this
    {
      Stamped(State())
    }

    constructor (sites: seq<Site>)
      ensures Valid()
      ensures State() == Store([], [], 0, Counters(0, 0)) && this.sites == sites
    {
      checks, events, clock, checked := [], [], 0, Counters(0, 0);
      this.sites := sites;
    }

    /** The INSERT shared by both check paths. */
    method RecordCheck(siteID: int, up: bool, fault: Option<nat>) returns (err: Option<Error>)
      requires Valid()
      modifies this`checks, this`clock
      ensures Valid()
      ensures Step(State(), err) == Insert(old(State()), siteID, up, fault)
    {
      err := Fail(fault);
      if err.None? {
        checks := checks + [CheckRecord(siteID, up, clock)];
        clock := clock + 1;
      }
    }

    /** monitor/alerts.go `publishOnTransition`. */
    method PublishOnTransition(site: Site, isUp: bool, o: Outcomes) returns (err: Option<Error>)
      requires Valid()
      modifies this`events
      ensures Valid()
      ensures Step(State(), err) == Alerts.PublishOnTransition(old(State()), site, isUp, o)
    {
      var wasUp := PreviousMeasurement(checks, site.id, o.query);
      if wasUp.Err? {
        return Some(wasUp.error);
      }
      if !IsTransition(wasUp.value, isUp) {
        return None;
      }
      err := Fail(o.publish);
      if err.None? {
        events := events + [TransitionEvent(site, isUp)];
      }
    }

    /** monitor/alerts.go `check`: ping, publish on a transition, insert. */
    method CheckAndPublish(site: Site, o: Outcomes) returns (err: Option<Error>)
      requires Valid()
      modifies this`checks, this`events, this`clock
      ensures Valid()
      ensures Step(State(), err) == Alerts.CheckAndPublish(old(State()), site, o)
    {
      if o.ping.Err? {
        return Some(o.ping.error);
      }
      err := PublishOnTransition(site, o.ping.value, o);
      if err.Some? {
        return;
      }
      err := RecordCheck(site.id, o.ping.value, o.insert);
    }

    /** monitor/check.go `Check`: count, look up, ping, insert. */
    method Check(siteID: int, o: Outcomes) returns (err: Option<Error>)
      requires Valid()
      modifies this`checks, this`clock, this`checked
      ensures Valid()
      ensures Step(State(), err) == Checks.Check(old(State()), sites, siteID, o)
    {
      var success := false;
      checked := Increment(checked, Labels(success));
      var site := Checks.Lookup(sites, siteID, o.lookup);
      if site.Err? {
        return Some(site.error);
      }
      if o.ping.Err? {
        return Some(o.ping.error);
      }
      err := RecordCheck(site.value.id, o.ping.value, o.insert);
    }

    /** monitor/check.go `CheckAll`, run one site after the other; the i-th
        listed site is checked with outcomes `env(i)`. */
    method CheckAll(listFault: Option<nat>, env: nat -> Outcomes) returns (err: Option<Error>)
      requires Valid()
      modifies this`checks, this`clock, this`checked
      ensures Valid()
      ensures Step(State(), err) == Checks.CheckAll(old(State()), sites, listFault, env)
    {
      if listFault.Some? {
        return Some(Failure(listFault.value));
      }
      var listed := sites;
      err := None;
      for i := 0 to |listed|
        invariant sites == listed && Valid()
        invariant Step(State(), err) == Checks.CheckFirst(old(State()), listed, i, env)
      {
        var e := Check(listed[i].id, env(i));
        if err.None? {
          err := e;
        }
      }
    }
  }
}
